=== FILE: README.md ===
# PDF sorter core, modelled in Dafny

The sorter is a small web service for going through a folder of PDFs, previewing them, and moving each
one into a destination folder. Underneath its routes, rendering and OS dialogs sits a small core, and
this project models it:

- **Collision resolution** (`move_pdf`). A moved file keeps its name when that name is free in the
  destination folder. Otherwise it becomes `stem_1.ext`, `stem_2.ext`, …, whichever comes first and
  is free. `Collision.FirstFree` is the loop itself, written as an imperative `while` loop over the
  numbered names. Its invariant says every candidate tried so far was taken. It terminates because
  distinct counters give distinct names, and a finite folder can hold only so many of them.
  `Collision.ResolveDestination` runs it on the candidates of the file's name.
- **Path parts.** The POSIX pathlib pieces the move needs are `PathNames.Name`, `Stem`, `Suffix` and `Join`.
  Stem and suffix split at the last dot of the final component, unless that dot is the first or the
  last character, as `PurePath.suffix` does up to Python 3.13; the model follows that rule.
- **Preview cache.** The cache is a `map<string, CacheValue>`. A value is one base64 image or a list of
  them. Each operation is a pure function returning its answer and the cache afterwards:
  - `render_pdf_preview` uses the plain path as its key.
  - `render_all_pages` uses the path followed by `_all`.
  - The preview-image route reads and writes the same plain key, but renders in colour at width 1400.
  - The move drops only the plain key.
- **Directory scan.** The scan keeps the names whose lower-cased suffix is `.pdf` and sorts them by
  name. The first ten of them are picked for cache warm-up.
- **Route normalisation.** A route path gets a leading `/` when it has none.

The PDF library is a parameter `Rasterizer`. Given a path, it gives the page count, or fails when the
file cannot be opened. It also renders one page with given settings, or fails. Base64 is a parameter
`Codec` (encode, decode). Where a lemma needs decoding to undo encoding, it says so with
`RoundTrips`. Paths are POSIX paths taken to be in pathlib's normal form, so `str(PurePosixPath(s)) == s`.

## Model

| member | source | states |
|---|---|---|
| PathNames.Name | main.py:235 | `source.name` is everything after the last separator: it holds no separator, is a suffix of the path, and is either the whole path or preceded by a separator |
| PathNames.Suffix | main.py:239 | the suffix is empty, or a dot followed by at least one non-dot character, taken from the end of the name and shorter than it; for a non-empty name it is non-empty exactly when a dot occurs after the first character and the name does not end with a dot |
| PathNames.Stem | main.py:238 | the stem is a prefix of the name, non-empty whenever the name is, and the stem followed by the suffix is the whole name |
| PathNames.StemSuffixSplit | main.py:238-239 | stem followed by suffix is the whole name |
| PathNames.Join | main.py:235 | `folder / name` is the name itself when the folder is empty or `.`; otherwise it is the folder, then a separator, then the name, where the separator is the folder's own last character when the folder already ends in one (so `/` and `b` give `/b`) |
| PathNames.NameOfJoin | main.py:235-242 | the final component of `folder / name` is `name` again, so the moved file carries the chosen name |
| Collision.Decimal | main.py:242 | the decimal text of the counter is non-empty, all digits, reads back as the counter's value, has no leading zero, ends with the last digit, and is one character exactly when the counter is below 10 |
| Collision.DecimalInjective | main.py:242 | different counters print differently |
| Collision.Candidate | main.py:242 | `f"{base}_{counter}{suffix}"` starts with the stem and an underscore, ends with the suffix, and what lies between is the decimal text of the counter |
| Collision.CandidateCounter | main.py:242 | the characters between the underscore and the suffix are all digits, have no leading zero, and read back as the counter |
| Collision.CandidateInjective | main.py:242 | different counters give different candidate names |
| Collision.CandidatesUpToSize | main.py:241-243 | the first n candidates are n distinct names, because no two counters share a candidate |
| Collision.TakenCandidatesBound | main.py:241-243 | if the first n candidates are all taken, the folder holds at least n names |
| Collision.TakenBound | main.py:241-243 | if n distinct numbered names are all taken, the folder holds at least n names; this bounds the counter and is why the loop ends |
| Collision.FirstFree | main.py:240-243 | the loop stops at the smallest counter k ≥ 1 whose name is free, every lower counter's name being taken; it ends whenever the numbered names are distinct |
| Collision.ResolveDestination | main.py:235-243 | the chosen name is free in the folder; it is the file's own name when that is free, else the candidate with the smallest counter k ≥ 1 that is free, all lower counters being taken |
| Collision.LowestFreeUnique | main.py:235-243 | at most one name satisfies that description, so the choice is determined by the folder contents |
| Collision.FirstCollisionExample | main.py:235-243 | with `a.pdf` present, a second `a.pdf` becomes `a_1.pdf` |
| Collision.SecondCollisionExample | main.py:235-243 | with `a.pdf` and `a_1.pdf` present, a third `a.pdf` becomes `a_2.pdf` |
| Routes.NormalizeRoute | main.py:185-186 | the result starts with `/`; a path already starting with `/` is unchanged; otherwise exactly one `/` is prepended (the same code is at main.py lines 258-259) |
| Routes.NormalizeRouteIdempotent | main.py:185-186 | normalising twice is normalising once |
| Routes.NormalizeRouteCollapses | main.py:185-186 | two routes reach the same file path only if they are equal or differ by one leading `/` |
| PreviewCache.AllPagesKey | main.py:38 | the all-pages key is the path followed by exactly `_all`, so it never equals the path |
| PreviewCache.FirstPage | main.py:23-24 | `fitz.open` then `doc[0]`: a page comes back exactly when the document opens, has at least one page, and page 0 renders with the given settings, and it is that render (the same steps are at main.py lines 197-198) |
| PreviewCache.RenderPages | main.py:45-54 | the page loop succeeds exactly when every page renders; it then yields one encoded image per page, in page order |
| PreviewCache.RenderPreview | main.py:18-35 | hit: the stored value, cache unchanged; miss: succeeds exactly when the first page of a non-empty document renders, then returns its grayscale encoding and stores it under the path; failure: None and no change; no other key ever changes |
| PreviewCache.RenderAllPages | main.py:37-57 | hit on `path_all`: the stored value, cache unchanged; miss where every page renders: one encoding per page in order, stored under `path_all`; otherwise `[]` and no change; only `path_all` can change |
| PreviewCache.PreviewImage | main.py:183-207 | 404 and no change when the normalised path does not exist; hit: the decoded cached value, or a decode failure when the entry is a page list or invalid text, cache unchanged; miss: succeeds exactly when the colour first page renders, returns those bytes and caches their encoding under the plain key; failure: 500 and no change |
| PreviewCache.Invalidate | main.py:245-247 | the plain key is gone and every other key keeps its value (including `path_all`) |
| PreviewCache.InvalidateForcesRender | main.py:245-247 | after the invalidation the next preview answers as on an empty cache, i.e. it renders afresh |
| PreviewCache.PreviewIsCached | main.py:19-20 | once a preview is answered, asking again answers the same and leaves the cache as it is, whatever the file would now render to |
| PreviewCache.AllPagesSurviveInvalidate | main.py:245-247 | after the move's invalidation, the all-pages preview of the old path is still the one cached before |
| PreviewCache.ImageFeedsPreview | main.py:193-205 | the colour width-1400 image rendered by the preview-image route is what the next grayscale preview of that path answers |
| PreviewCache.PreviewFeedsImage | main.py:193-194 | a cached grayscale width-1200 preview is what the preview-image route serves for that path |
| PreviewCache.AllPagesKeyCollides | main.py:38-40 | the single preview of `p + "_all"` answers the page list cached for `p` |
| PreviewCache.OperationsKeepDecodable | main.py:205 | all four cache operations keep every single-image entry valid base64 text |
| PreviewCache.DecodeFailsOnlyOnPageList | main.py:193-194 | with valid entries, the preview-image route fails to decode only when a page list sits under the plain key |
| Scanner.Lower | main.py:145 | `.lower()` keeps the length and lower-cases each character on its own: `A`–`Z` become `a`–`z`, every other character stays |
| Scanner.IsPdfName | main.py:145 | `file.suffix.lower() == ".pdf"` holds exactly when the name is at least five characters long and ends with a dot followed by `p`, `d` and `f`, each in either letter case |
| Scanner.IsPdfNameCharacterization | main.py:145 | a name is kept exactly when it is at least five characters long and ends in `.pdf` in any letter case (so `.pdf` itself and `a.pdf.bak` are not) |
| Scanner.PdfEntries | main.py:143-149 | every collected entry is a listed name that passes the `.pdf` test, with its path being that name joined to the folder, and there are no more entries than listed names |
| Scanner.PdfEntriesCount | main.py:143-149 | each PDF name appears among the collected entries as often as in the listing, and no other name appears |
| Scanner.InsertSorted | main.py:151 | inserting into a name-sorted sequence keeps it sorted |
| Scanner.SortByName | main.py:151 | the result is sorted by name in code-point order and is a permutation of the input |
| Scanner.SortedPdfs | main.py:143-151 | the scanned list is sorted by name, each entry's path is its name under the folder, and its names are exactly the listed PDF names with their multiplicities |
| Scanner.Scan | main.py:136-157 | 404 when the directory is missing, checked before 400 for a non-directory; otherwise the sorted PDF list described above |
| Scanner.WarmUpTargets | main.py:154 | the warm-up targets are the paths of the first min(10, n) sorted entries, in order |
| Scanner.WarmUpTargetsOfScan | main.py:143-154 | every warmed path is a listed PDF name joined to the folder, and no warmed entry sorts after an entry that is not warmed |
| Scanner.WarmUp | main.py:153-155 | after the warm-up renders, keys outside the targets are untouched; a target already cached keeps its value; an uncached target is cached exactly when its first page renders, and then holds that encoding |
| Scanner.NameLessEq | main.py:151 | the order `sorted` uses on names holds exactly when the first name is a prefix of the second, or has the smaller code point at the first position where they differ |
| Scanner.NameLessEqTransitive | main.py:151 | the name order is transitive |
| Scanner.NameLessEqTotal | main.py:151 | any two names are comparable |
| Move.MovePdf | main.py:225-254 | a missing source is reported before a missing folder, and neither error touches the cache. Otherwise the plain key of the source is dropped and nothing else changes, even when the physical move then fails. On success the new path is the folder joined with the lowest free name, a name that `exists()` reported absent |

## Left out

- Rendering, scaling and JPEG encoding by the PDF library are floating-point foreign calls. They are
  the `Rasterizer` parameter. A zero page width (a division by zero) counts as a failed render.
- Base64 encoding and decoding are a library call. They are the `Codec` parameter.
- The folder dialog and `/api/pick-folder` are left out. They are subprocess and UI code.
- The thread pool and asyncio dispatch are left out. `Scanner.WarmUp` models the fire-and-forget
  warm-up as if the renders ran one after another. Its contract does not depend on that order.
- The file system is left out. `Path.exists`, `is_dir`, `iterdir`, `mkdir` and `shutil.move` appear
  only as facts passed in: a boolean, a set of names or paths, or a listing.
- `expanduser` and `absolute` are left out. The scan takes the absolute folder path as a parameter.
- Route wrappers are not modelled. `/api/all-pages` (main.py:172-181) is a 404 check around
  `render_all_pages`. `/api/preview` (main.py:159-170) is a 404 check around `render_pdf_preview`
  that answers 500 for any falsy result: `None`, and also an empty page list that sits under the
  plain key because of the `_all` key collision (`PreviewCache.AllPagesKeyCollides`); a non-empty
  page list found there is answered as the "preview". Also not modelled: `validate_folder`,
  `get_pdf` file serving, static mounting, headers, `Response` construction and FastAPI routing.
- The `target_width` parameter of `render_pdf_preview` and `render_all_pages` (main.py:18, 37) is
  fixed at its default of 1200, because no caller passes it.
- Scanner.Lower: folds only `A`–`Z`, whereas `str.lower` is full Unicode case mapping. For the
  comparison with `.pdf` this makes no difference, because no other character lower-cases to `.`,
  `p`, `d` or `f`.
- Path normal form is assumed, not modelled. `Path(...)` collapses `//`, drops trailing `/` and `.`
  components, and the model does neither. So the move's `str(source)` and the route strings are
  taken as already normal.
- Move.MovePdf: does not say what happens to the folder listing after the move. When the source
  already sits in the destination folder, its own name is taken (it gets renamed `stem_1`) and it
  then leaves. The model proves only that the chosen name was free.
- A source whose final component is empty (the root directory or `.`) is not modelled faithfully.
  pathlib gives `Path(".").name == ""` where `Name(".")` is `"."`, and it joins an empty name to the
  folder itself, while `Join` appends a separator.
- Paths are `PurePosixPath`s: `/` is the only separator and names are compared case-sensitively.
  On Windows `source.name` also splits at `\`. On Windows and on macOS's default file system (APFS)
  `Path.exists` ignores letter case. So `Name`, `Join` and the collision test can answer differently
  there.
- Move.MovePdf: treats every `exists()` as a test that always answers, but it can raise. Python
  3.12's `Path.exists` swallows only ENOENT, ENOTDIR, EBADF and ELOOP. A taken source name of 251 to
  255 bytes makes the candidate `stem_1.pdf` longer than NAME_MAX, so `destination.exists()`
  (main.py:241) raises ENAMETOOLONG, and an unreadable folder raises EACCES. The request then ends
  in a 500 before the invalidation at main.py:245-247: the cache entry stays and nothing moves. The
  model has no such outcome; once both checks pass it always reaches the invalidation.
- Scanner.Scan: treats `iterdir()` as always yielding a listing. On an unreadable folder it raises
  PermissionError (main.py:144) and the route answers 500, where the model answers `Listed`.
- Move.MovePdf: promises only that the chosen name is one for which the existence test was false,
  not that no file is overwritten. `exists()` follows symlinks, so a dangling symlink with the chosen
  name counts as free and `shutil.move` replaces it; another process may also create the name between
  the test and the move.
- Each cache operation is modelled as atomic. A warm-up render still running in an executor thread
  when the move deletes the key (main.py:247) can store its result afterwards (main.py:32), so the
  "renders afresh" promise of `PreviewCache.InvalidateForcesRender` holds only when the operations
  do not interleave.

=== FILE: collision.dfy ===
/**
 * Choosing the destination name when a file is moved into a folder: keep the
 * file's own name when it is free, otherwise try `stem_1.ext`, `stem_2.ext`,
 * ... and take the first one that is free.
 */
module Collision {
  import opened PathNames

  /** The character of a decimal digit. */
  function DigitChar(d: nat): (c: char)
    requires d < 10
    ensures '0' <= c <= '9'
  {
    ('0' as int + d) as char
  }

  /** The number a string of decimal digits denotes. */
  function Value(s: string): nat
    requires forall i :: 0 <= i < |s| ==> '0' <= s[i] <= '9'
  {
    if s == [] then 0 else Value(s[..|s| - 1]) * 10 + (s[|s| - 1] as int - '0' as int)
  }

  /** Python's `str(n)` for a natural number: its decimal numeral, without leading zeros. */
  function Decimal(n: nat): (r: string)
    ensures 1 <= |r|
    ensures r[|r| - 1] == DigitChar(n % 10)
    ensures forall i :: 0 <= i < |r| ==> '0' <= r[i] <= '9'
    ensures (|r| == 1) == (n < 10)
    ensures Value(r) == n
    ensures n >= 10 ==> r[0] != '0'
    decreases n
  {
    if n < 10 then [DigitChar(n)] else Decimal(n / 10) + [DigitChar(n % 10)]
  }

  /** Distinct numbers are written differently. */
  lemma DecimalInjective(m: nat, n: nat)
    requires Decimal(m) == Decimal(n)
    ensures m == n
  {
    // Both numerals read back as their own number under `Value`.
  }

  /** The name tried on the k-th collision: `f"{stem}_{k}{suffix}"`. */
  function Candidate(stem: string, suffix: string, k: nat): (r: string)
    ensures |r| == |stem| + 1 + |Decimal(k)| + |suffix|
    ensures r[..|stem|] == stem && r[|stem|] == '_' && r[|r| - |suffix|..] == suffix
    ensures r[|stem| + 1..|r| - |suffix|] == Decimal(k)
  {
    var r := stem + "_" + Decimal(k) + suffix;
    assert r[|stem| + 1..|r| - |suffix|] == Decimal(k);
    r
  }

  /** The digits between the underscore and the suffix read back as the counter. */
  lemma CandidateCounter(stem: string, suffix: string, k: nat)
    ensures var r := Candidate(stem, suffix, k);
      var digits := r[|stem| + 1..|r| - |suffix|];
      && (forall i :: 0 <= i < |digits| ==> '0' <= digits[i] <= '9')
      && Value(digits) == k
      && (k >= 10 ==> digits[0] != '0')
  {
  }

  /** Different counters give different candidate names. */
  lemma CandidateInjective(stem: string, suffix: string, j: nat, k: nat)
    requires Candidate(stem, suffix, j) == Candidate(stem, suffix, k)
    ensures j == k
  {
    var a, b := Candidate(stem, suffix, j), Candidate(stem, suffix, k);
    var lo := |stem| + 1;
    assert |Decimal(j)| == |Decimal(k)|;
    assert a[lo..lo + |Decimal(j)|] == Decimal(j);
    assert b[lo..lo + |Decimal(k)|] == Decimal(k);
    DecimalInjective(j, k);
  }

  /** The names `f(1)`, ..., `f(n)`. */
  ghost function Numbered(f: nat -> string, n: nat): set<string>
  {
    if n == 0 then {} else Numbered(f, n - 1) + {f(n)}
  }

  lemma {:induction false} NumberedMembers(f: nat -> string, n: nat, x: string)
    ensures x in Numbered(f, n) <==> exists j :: 1 <= j <= n && x == f(j)
  {
    if n > 0 {
      NumberedMembers(f, n - 1, x);
      if x in Numbered(f, n) && x != f(n) {
        var j :| 1 <= j <= n - 1 && x == f(j);
        assert 1 <= j <= n;
      }
      if exists j :: 1 <= j <= n && x == f(j) {
        var j :| 1 <= j <= n && x == f(j);
        if j < n {
          assert x in Numbered(f, n - 1);
        }
      }
    }
  }

  /** Without repetitions among `f(1)`, ..., `f(n)` there are `n` of them. */
  lemma {:induction false} NumberedSize(f: nat -> string, n: nat)
    requires forall i, j :: 1 <= i <= n && 1 <= j <= n && f(i) == f(j) ==> i == j
    ensures |Numbered(f, n)| == n
  {
    if n > 0 {
      NumberedSize(f, n - 1);
      NumberedMembers(f, n - 1, f(n));
      assert forall j :: 1 <= j <= n - 1 ==> f(j) != f(n);
    }
  }

  /** The candidate names in counter order. */
  function CandidateNames(stem: string, suffix: string): nat -> string
  {
    (k: nat) => Candidate(stem, suffix, k)
  }

  /** No two counters share a candidate name. */
  lemma CandidateNamesInjective(stem: string, suffix: string)
    ensures var f := CandidateNames(stem, suffix);
      forall i, j :: 1 <= i && 1 <= j && f(i) == f(j) ==> i == j
  {
    var f := CandidateNames(stem, suffix);
    forall i, j | 1 <= i && 1 <= j && f(i) == f(j)
      ensures i == j
    {
      CandidateInjective(stem, suffix, i, j);
    }
  }

  /** The first `n` candidates. */
  ghost function CandidatesUpTo(stem: string, suffix: string, n: nat): set<string>
  {
    Numbered(CandidateNames(stem, suffix), n)
  }

  /** There are exactly `n` of them, because candidates never coincide. */
  lemma CandidatesUpToSize(stem: string, suffix: string, n: nat)
    ensures |CandidatesUpTo(stem, suffix, n)| == n
  {
    var f := CandidateNames(stem, suffix);
    forall i, j | 1 <= i <= n && 1 <= j <= n && f(i) == f(j)
      ensures i == j
    {
      CandidateInjective(stem, suffix, i, j);
    }
    NumberedSize(f, n);
  }

  /** A finite folder holds at most as many names as it has entries: if the first `n` candidates are all taken, `n <= |existing|`. */
  lemma TakenCandidatesBound(existing: set<string>, stem: string, suffix: string, n: nat)
    requires forall j :: 1 <= j <= n ==> Candidate(stem, suffix, j) in existing
    ensures n <= |existing|
  {
    var f := CandidateNames(stem, suffix);
    forall i, j | 1 <= i <= n && 1 <= j <= n && f(i) == f(j)
      ensures i == j
    {
      CandidateInjective(stem, suffix, i, j);
    }
    TakenBound(existing, f, n);
  }

  /** If the distinct names `f(1)`, ..., `f(n)` are all in `existing`, it has at least `n` elements. */
  lemma TakenBound(existing: set<string>, f: nat -> string, n: nat)
    requires forall i, j :: 1 <= i <= n && 1 <= j <= n && f(i) == f(j) ==> i == j
    requires forall j :: 1 <= j <= n ==> f(j) in existing
    ensures n <= |existing|
  {
    var taken := Numbered(f, n);
    forall x | x in taken
      ensures x in existing
    {
      NumberedMembers(f, n, x);
    }
    NumberedSize(f, n);
    assert |existing| == |taken| + |existing - taken|;
  }

  /**
   * `dest` is the name the move must choose in a folder holding `existing`
   * for a file called `name`: the name itself when free, otherwise the
   * candidate with the smallest counter `k >= 1` that is free.
   */
  ghost predicate LowestFree(existing: set<string>, name: string, dest: string) {
    if name !in existing then dest == name
    else exists k: nat {:trigger Candidate(Stem(name), Suffix(name), k)} ::
      && 1 <= k
      && dest == Candidate(Stem(name), Suffix(name), k)
      && dest !in existing
      && forall j :: 1 <= j < k ==> Candidate(Stem(name), Suffix(name), j) in existing
  }

  /** At most one name is the lowest free one. */
  lemma LowestFreeUnique(existing: set<string>, name: string, d1: string, d2: string)
    requires LowestFree(existing, name, d1) && LowestFree(existing, name, d2)
    ensures d1 == d2
  {
    if name in existing {
      var stem, suffix := Stem(name), Suffix(name);
      var k1: nat :| 1 <= k1 && d1 == Candidate(stem, suffix, k1) && d1 !in existing
        && forall j :: 1 <= j < k1 ==> Candidate(stem, suffix, j) in existing;
      var k2: nat :| 1 <= k2 && d2 == Candidate(stem, suffix, k2) && d2 !in existing
        && forall j :: 1 <= j < k2 ==> Candidate(stem, suffix, j) in existing;
      assert k1 == k2;
    }
  }

  /**
   * The collision loop of the move: starting from `name`, while the current
   * destination exists, try the next numbered candidate. `existing` is the
   * set of names already present in the destination folder.
   */
  method ResolveDestination(existing: set<string>, name: string) returns (dest: string)
    ensures dest !in existing
    ensures LowestFree(existing, name, dest)
    ensures Separator !in name ==> Separator !in dest
  {
    dest := name;
    if dest in existing {
      var stem, suffix := Stem(name), Suffix(name);
      CandidateNamesInjective(stem, suffix);
      var k := FirstFree(existing, CandidateNames(stem, suffix));
      dest := CandidateNames(stem, suffix)(k);
      LowestFreeAt(existing, name, k);
      if Separator !in name {
        CandidateKeepsSeparatorOut(name, k);
      }
    }
  }

  /**
   * The `while destination.exists()` loop: try counters 1, 2, ... and stop
   * at the first one whose name is free. It ends because the names are
   * distinct and the folder is finite.
   */
  method FirstFree(existing: set<string>, f: nat -> string) returns (k: nat)
    requires forall i, j :: 1 <= i && 1 <= j && f(i) == f(j) ==> i == j
    ensures 1 <= k && f(k) !in existing
    ensures forall j :: 1 <= j < k ==> f(j) in existing
  {
    k := 1;
    while f(k) in existing
      invariant 1 <= k
      invariant forall j :: 1 <= j < k ==> f(j) in existing
      decreases |existing| - (k - 1)
    {
      TakenBound(existing, f, k);
      k := k + 1;
    }
  }

  /** A taken name whose k-th candidate is the first free one resolves to that candidate. */
  lemma LowestFreeAt(existing: set<string>, name: string, k: nat)
    requires name in existing && 1 <= k
    requires CandidateNames(Stem(name), Suffix(name))(k) !in existing
    requires forall j :: 1 <= j < k ==> CandidateNames(Stem(name), Suffix(name))(j) in existing
    ensures LowestFree(existing, name, Candidate(Stem(name), Suffix(name), k))
  {
    var stem, suffix := Stem(name), Suffix(name);
    forall j | 1 <= j < k
      ensures Candidate(stem, suffix, j) in existing
    {
      assert CandidateNames(stem, suffix)(j) in existing;
    }
    assert CandidateNames(stem, suffix)(k) == Candidate(stem, suffix, k);
  }

  /** A candidate built from a name without separators has none either. */
  lemma CandidateKeepsSeparatorOut(name: string, k: nat)
    requires Separator !in name
    ensures Separator !in Candidate(Stem(name), Suffix(name), k)
  {
    var stem, suffix := Stem(name), Suffix(name);
    assert Separator !in stem && Separator !in suffix;
    assert Candidate(stem, suffix, k) == stem + "_" + Decimal(k) + suffix;
  }

  lemma SplitExampleName()
    ensures Stem("a.pdf") == "a" && Suffix("a.pdf") == ".pdf"
  {
    assert "a.pdf"[..4] == "a.pd" && "a.pd"[..3] == "a.p" && "a.p"[..2] == "a.";
    assert LastIndexOf("a.", Dot) == 1;
  }

  /** A second "a.pdf" moved next to "a.pdf" becomes "a_1.pdf". */
  lemma FirstCollisionExample()
    ensures LowestFree({"a.pdf"}, "a.pdf", "a_1.pdf")
  {
    SplitExampleName();
    assert Decimal(1) == "1";
    assert Candidate("a", ".pdf", 1) == "a_1.pdf";
  }

  /** A third "a.pdf", with "a.pdf" and "a_1.pdf" present, becomes "a_2.pdf". */
  lemma SecondCollisionExample()
    ensures LowestFree({"a.pdf", "a_1.pdf"}, "a.pdf", "a_2.pdf")
  {
    SplitExampleName();
    var existing := {"a.pdf", "a_1.pdf"};
    var first, second := Candidate("a", ".pdf", 1), Candidate("a", ".pdf", 2);
    assert Decimal(1) == "1" && first == "a_1.pdf";
    assert Decimal(2) == "2" && second == "a_2.pdf";
    assert second !in existing by {
      assert second[2] != "a.pdf"[2] && second[2] != "a_1.pdf"[2];
    }
    assert forall j :: 1 <= j < 2 ==> Candidate("a", ".pdf", j) == first;
  }
}

=== FILE: move.dfy ===
/**
 * `move_pdf`: check that the source and the destination folder exist,
 * choose a free name in the folder, drop the source's single-preview cache
 * entry, then move the file.
 *
 * The file system is given as facts: whether the source exists, the names
 * present in the destination folder (None when the folder does not exist),
 * and whether the physical move succeeds.
 */
module Move {
  import opened Wrappers
  import opened PathNames
  import opened Collision
  import opened PreviewCache

  /** What the move route answers. */
  datatype MoveReply =
    | Moved(newPath: string)   // 200 with the new path
    | SourceNotFound           // 404: the source file does not exist
    | FolderNotFound           // 404: the destination folder does not exist
    | MoveFailed               // 500: the physical move raised

  /**
   * Returns the reply and the preview cache afterwards. On success the new
   * path is the destination folder joined with the lowest free name: the
   * first one for which the existence test came back false.
   */
  method MovePdf(cache: Cache, source: string, sourceExists: bool, folder: string,
                 folderNames: Option<set<string>>, moveSucceeds: bool)
    returns (reply: MoveReply, cacheAfter: Cache)
    ensures !sourceExists ==> reply == SourceNotFound && cacheAfter == cache
    ensures sourceExists && folderNames.None? ==> reply == FolderNotFound && cacheAfter == cache
    ensures sourceExists && folderNames.Some? ==>
      && source !in cacheAfter
      && AgreeExcept(cache, cacheAfter, source)
      && (reply.Moved? <==> moveSucceeds)
      && (!moveSucceeds ==> reply == MoveFailed)
    ensures reply.Moved? ==>
      && folderNames.Some?
      && reply.newPath == Join(folder, Name(reply.newPath))
      && Name(reply.newPath) !in folderNames.value
      && LowestFree(folderNames.value, Name(source), Name(reply.newPath))
  {
    if !sourceExists {
      return SourceNotFound, cache;
    }
    if folderNames.None? {
      return FolderNotFound, cache;
    }
    var name := ResolveDestination(folderNames.value, Name(source));
    var destination := Join(folder, name);
    NameOfJoin(folder, name);
    cacheAfter := Invalidate(cache, source);
    if !moveSucceeds {
      return MoveFailed, cacheAfter;
    }
    reply := Moved(destination);
  }
}

=== FILE: paths.dfy ===
/**
 * The parts of pathlib the service relies on: the final component of a path
 * (`Path.name`), its stem and suffix (`Path.stem`, `Path.suffix`) and joining
 * a folder with a child name (`folder / name`).
 *
 * Paths are strings in pathlib's normal form (no doubled or trailing slashes,
 * no "." components), so that `str(Path(s)) == s`.
 */
module PathNames {

  const Separator: char := '/'
  const Dot: char := '.'

  /** Python's `str.rfind(c)`: the index of the last occurrence of `c`, or -1. */
  function LastIndexOf(s: string, c: char): (r: int)
    ensures -1 <= r < |s|
    ensures r >= 0 ==> s[r] == c
    ensures forall i :: r < i < |s| ==> s[i] != c
  {
    if |s| == 0 then -1
    else if s[|s| - 1] == c then |s| - 1
    else LastIndexOf(s[..|s| - 1], c)
  }

  /** `Path.name`: everything after the last separator. */
  function Name(path: string): (r: string)
    ensures Separator !in r
    ensures |r| <= |path| && path[|path| - |r|..] == r
    ensures |r| == |path| || path[|path| - |r| - 1] == Separator
  {
    path[LastIndexOf(path, Separator) + 1..]
  }

  /** `Path.suffix`: the last dot and what follows it, unless that dot leads the name or ends it. */
  function Suffix(name: string): (r: string)
    ensures r == [] || (2 <= |r| && r[0] == Dot && Dot !in r[1..])
    ensures r != [] ==> |r| < |name| && name[|name| - |r|..] == r
    ensures name != [] ==> (r != [] <==> Dot in name[1..] && name[|name| - 1] != Dot)
  {
    var i := LastIndexOf(name, Dot);
    if 0 < i < |name| - 1 then name[i..] else []
  }

  /** `Path.stem`: the name without its suffix. */
  function Stem(name: string): (r: string)
    ensures |r| <= |name| && name[..|r|] == r
    ensures name != [] ==> r != []
    ensures r + Suffix(name) == name
  {
    var i := LastIndexOf(name, Dot);
    if 0 < i < |name| - 1 then name[..i] else name
  }

  /** The stem and the suffix together give back the name. */
  lemma StemSuffixSplit(name: string)
    ensures Stem(name) + Suffix(name) == name
  {
  }

  /** `str(folder / name)` for a folder in normal form ("." and "" stand for the current folder). */
  function Join(folder: string, name: string): (r: string)
    ensures |name| <= |r| && r[|r| - |name|..] == name
    ensures folder != "" && folder != "." ==>
      && |folder| + |name| <= |r| <= |folder| + 1 + |name|
      && r[..|folder|] == folder
      && r[|r| - |name| - 1] == Separator
    ensures folder == "" || folder == "." ==> r == name
    ensures folder != "" && folder != "." && folder[|folder| - 1] == Separator ==> |r| == |folder| + |name|
    ensures folder != "" && folder != "." && folder[|folder| - 1] != Separator ==> |r| == |folder| + 1 + |name|
  {
    if folder == "" || folder == "." then name
    else if folder[|folder| - 1] == Separator then folder + name
    else folder + [Separator] + name
  }

  /** Joining a folder with a plain name and taking the final component gives the name back. */
  lemma NameOfJoin(folder: string, name: string)
    requires Separator !in name
    ensures Name(Join(folder, name)) == name
  {
    var p := Join(folder, name);
    var k := |p| - |name|;
    assert p[k..] == name;
    var i := LastIndexOf(p, Separator);
    if k == 0 {
      assert p == name;
      assert i == -1;
    } else {
      assert p[k - 1] == Separator;
      assert forall j :: k <= j < |p| ==> p[j] == name[j - k] && p[j] != Separator;
      assert i == k - 1;
    }
  }
}

=== FILE: preview_cache.dfy ===
/**
 * The process-wide preview cache and the three ways of filling it: the
 * grayscale first-page preview, the grayscale all-pages preview (stored under
 * the path followed by "_all"), and the colour first-page image of the
 * preview-image route, which shares the plain path key with the first.
 *
 * The PDF library and base64 are parameters: a `Rasterizer` opens a document
 * (reporting its page count, or failing) and renders one page as JPEG bytes
 * (or fails); a `Codec` encodes bytes to text and decodes text back.
 * Every operation is a pure function from the cache before to its answer
 * and the cache after.
 */
module PreviewCache {
  import opened Wrappers
  import opened Routes

  type Byte = b: int | 0 <= b < 256
  type Bytes = seq<Byte>

  /** Target width in pixels, JPEG quality, and whether the page is rendered in grayscale. */
  datatype Settings = Settings(width: nat, quality: nat, grayscale: bool)

  const PreviewSettings: Settings := Settings(1200, 75, true)
  const AllPagesSettings: Settings := Settings(1200, 70, true)
  const ImageSettings: Settings := Settings(1400, 90, false)

  /** The PDF library as the service uses it: `pageCount` is None when the file cannot be opened. */
  datatype Rasterizer = Rasterizer(
    pageCount: string -> Option<nat>,
    renderPage: (string, nat, Settings) -> Option<Bytes>)

  /** Base64: text for bytes, and bytes for text when the text is valid. */
  datatype Codec = Codec(encode: Bytes -> string, decode: string -> Option<Bytes>)

  /** Decoding undoes encoding. */
  ghost predicate RoundTrips(codec: Codec) {
    forall b: Bytes :: codec.decode(codec.encode(b)) == Some(b)
  }

  /** A cached value: one encoded image, or the list of encoded page images. */
  datatype CacheValue = Encoded(text: string) | EncodedPages(pages: seq<string>)

  type Cache = map<string, CacheValue>

  /** The answer of a cache operation together with the cache it leaves behind. */
  datatype Step<T> = Step(result: T, cache: Cache)

  const AllPagesMarker: string := "_all"

  /** The key of the all-pages preview of `path`. */
  function AllPagesKey(path: string): (k: string)
    ensures |k| == |path| + |AllPagesMarker| && k[..|path|] == path && k != path
    ensures k[|path|..] == AllPagesMarker
  {
    path + AllPagesMarker
  }

  /** `after` agrees with `before` on every key other than `key`. */
  ghost predicate AgreeExcept(before: Cache, after: Cache, key: string) {
    forall k :: k != key ==> (k in after <==> k in before) && (k in before ==> after[k] == before[k])
  }

  /** Open the document and render `doc[0]`; an empty document fails like an unreadable one. */
  function FirstPage(ras: Rasterizer, path: string, settings: Settings): (r: Option<Bytes>)
    ensures r.Some? <==> ras.pageCount(path).Some? && ras.pageCount(path).value > 0 && ras.renderPage(path, 0, settings).Some?
    ensures r.Some? ==> r == ras.renderPage(path, 0, settings)
  {
    match ras.pageCount(path)
    case None => None
    case Some(n) => if n == 0 then None else ras.renderPage(path, 0, settings)
  }

  /** Every one of the first `n` pages renders with `settings`. */
  ghost predicate PagesRender(ras: Rasterizer, path: string, settings: Settings, n: nat) {
    forall i :: 0 <= i < n ==> ras.renderPage(path, i, settings).Some?
  }

  /** The document opens and every page of it renders. */
  ghost predicate DocumentRenders(ras: Rasterizer, path: string, settings: Settings) {
    ras.pageCount(path).Some? && PagesRender(ras, path, settings, ras.pageCount(path).value)
  }

  /** The loop over the pages of a document: the encoded images of pages 0 to n-1, or None at the first failure. */
  function RenderPages(ras: Rasterizer, path: string, settings: Settings, codec: Codec, n: nat): (r: Option<seq<string>>)
    ensures r.Some? <==> PagesRender(ras, path, settings, n)
    ensures r.Some? ==> |r.value| == n
    ensures r.Some? ==> forall i :: 0 <= i < n ==> r.value[i] == codec.encode(ras.renderPage(path, i, settings).value)
  {
    if n == 0 then Some([])
    else match RenderPages(ras, path, settings, codec, n - 1)
      case None => None
      case Some(earlier) =>
        match ras.renderPage(path, n - 1, settings)
        case None => None
        case Some(image) => Some(earlier + [codec.encode(image)])
  }

  /**
   * `render_pdf_preview`: the cached value under `path` if there is one;
   * otherwise the grayscale first page, stored under `path`; None (and no
   * change) when rendering fails.
   */
  function RenderPreview(cache: Cache, path: string, ras: Rasterizer, codec: Codec): (s: Step<Option<CacheValue>>)
    ensures path in cache ==> s.result == Some(cache[path]) && s.cache == cache
    ensures path !in cache ==> (s.result.Some? <==> FirstPage(ras, path, PreviewSettings).Some?)
    ensures path !in cache && s.result.Some? ==>
      && s.result.value == Encoded(codec.encode(FirstPage(ras, path, PreviewSettings).value))
      && s.cache == cache[path := s.result.value]
    ensures s.result.None? ==> s.cache == cache
    ensures AgreeExcept(cache, s.cache, path)
  {
    if path in cache then Step(Some(cache[path]), cache)
    else match FirstPage(ras, path, PreviewSettings)
      case None => Step(None, cache)
      case Some(image) =>
        var value := Encoded(codec.encode(image));
        Step(Some(value), cache[path := value])
  }

  /**
   * `render_all_pages`: the cached value under `path + "_all"` if there is
   * one; otherwise one encoded grayscale image per page, in page order,
   * stored under that key; the empty list (and no change) when opening or
   * any page fails.
   */
  function RenderAllPages(cache: Cache, path: string, ras: Rasterizer, codec: Codec): (s: Step<CacheValue>)
    ensures AllPagesKey(path) in cache ==> s.result == cache[AllPagesKey(path)] && s.cache == cache
    ensures AllPagesKey(path) !in cache && DocumentRenders(ras, path, AllPagesSettings) ==>
      && s.result.EncodedPages?
      && |s.result.pages| == ras.pageCount(path).value
      && (forall i :: 0 <= i < |s.result.pages| ==>
            s.result.pages[i] == codec.encode(ras.renderPage(path, i, AllPagesSettings).value))
      && s.cache == cache[AllPagesKey(path) := s.result]
    ensures AllPagesKey(path) !in cache && !DocumentRenders(ras, path, AllPagesSettings) ==>
      s.result == EncodedPages([]) && s.cache == cache
    ensures AgreeExcept(cache, s.cache, AllPagesKey(path))
  {
    var key := AllPagesKey(path);
    if key in cache then Step(cache[key], cache)
    else match ras.pageCount(path)
      case None => Step(EncodedPages([]), cache)
      case Some(n) =>
        match RenderPages(ras, path, AllPagesSettings, codec, n)
        case None => Step(EncodedPages([]), cache)
        case Some(pages) => Step(EncodedPages(pages), cache[key := EncodedPages(pages)])
  }

  /** What the preview-image route answers. */
  datatype ImageReply =
    | Image(jpeg: Bytes)   // 200 with the JPEG bytes
    | NotFound             // 404: no file at the path
    | RenderFailed         // 500: rendering raised
    | DecodeFailed         // the cached value is not decodable base64 text (an uncaught error, so a 500)

  /**
   * `get_preview_image`: normalise the route path, answer 404 when no file
   * is there, serve the decoded cached value under the plain path if any,
   * else render the colour first page at width 1400 and cache its encoding
   * under that same plain key. `files` is the set of paths that exist.
   */
  function PreviewImage(cache: Cache, route: string, files: set<string>, ras: Rasterizer, codec: Codec): (s: Step<ImageReply>)
    ensures NormalizeRoute(route) !in files ==> s == Step(NotFound, cache)
    ensures var p := NormalizeRoute(route);
      p in files && p in cache ==>
        && s.cache == cache
        && (s.result.Image? <==> cache[p].Encoded? && codec.decode(cache[p].text).Some?)
        && (s.result.Image? ==> codec.decode(cache[p].text) == Some(s.result.jpeg))
        && (!s.result.Image? ==> s.result == DecodeFailed)
    ensures var p := NormalizeRoute(route);
      p in files && p !in cache ==>
        && (s.result.Image? <==> FirstPage(ras, p, ImageSettings).Some?)
        && (s.result.Image? ==>
              && s.result.jpeg == FirstPage(ras, p, ImageSettings).value
              && s.cache == cache[p := Encoded(codec.encode(s.result.jpeg))])
        && (!s.result.Image? ==> s == Step(RenderFailed, cache))
    ensures AgreeExcept(cache, s.cache, NormalizeRoute(route))
  {
    var p := NormalizeRoute(route);
    if p !in files then Step(NotFound, cache)
    else if p in cache then
      match cache[p]
      case EncodedPages(_) => Step(DecodeFailed, cache)
      case Encoded(text) =>
        match codec.decode(text)
        case None => Step(DecodeFailed, cache)
        case Some(image) => Step(Image(image), cache)
    else
      match FirstPage(ras, p, ImageSettings)
      case None => Step(RenderFailed, cache)
      case Some(image) => Step(Image(image), cache[p := Encoded(codec.encode(image))])
  }

  /** The invalidation done by the move: drop the plain key `path` and nothing else. */
  function Invalidate(cache: Cache, path: string): (r: Cache)
    ensures path !in r
    ensures AgreeExcept(cache, r, path)
    ensures |r| == if path in cache then |cache| - 1 else |cache|
  {
    cache - {path}
  }

  /** After invalidation the next preview is a fresh render: it answers as on an empty cache. */
  lemma InvalidateForcesRender(cache: Cache, path: string, ras: Rasterizer, codec: Codec)
    ensures RenderPreview(Invalidate(cache, path), path, ras, codec).result
         == RenderPreview(map[], path, ras, codec).result
  {
  }

  /** A second preview of the same path answers what the first stored, whatever the file now renders to. */
  lemma PreviewIsCached(cache: Cache, path: string, ras: Rasterizer, later: Rasterizer, codec: Codec)
    requires RenderPreview(cache, path, ras, codec).result.Some?
    ensures var s := RenderPreview(cache, path, ras, codec);
      RenderPreview(s.cache, path, later, codec) == s
  {
  }

  /** The invalidation leaves the all-pages entry behind: the all-pages preview after it is the stale one. */
  lemma AllPagesSurviveInvalidate(cache: Cache, path: string, ras: Rasterizer, codec: Codec)
    requires AllPagesKey(path) in cache
    ensures RenderAllPages(Invalidate(cache, path), path, ras, codec).result == cache[AllPagesKey(path)]
  {
  }

  /**
   * The colour image rendered by the preview-image route lands under the
   * plain key, so the next grayscale preview of that path answers the
   * colour width-1400 image without rendering.
   */
  lemma ImageFeedsPreview(cache: Cache, route: string, files: set<string>, ras: Rasterizer, later: Rasterizer, codec: Codec)
    requires NormalizeRoute(route) in files && NormalizeRoute(route) !in cache
    requires FirstPage(ras, NormalizeRoute(route), ImageSettings).Some?
    ensures var s := PreviewImage(cache, route, files, ras, codec);
      RenderPreview(s.cache, NormalizeRoute(route), later, codec).result
        == Some(Encoded(codec.encode(FirstPage(ras, NormalizeRoute(route), ImageSettings).value)))
  {
  }

  /**
   * Conversely, once the grayscale preview of an absolute path is cached the
   * preview-image route serves those grayscale width-1200 bytes.
   */
  lemma PreviewFeedsImage(cache: Cache, path: string, files: set<string>, ras: Rasterizer, later: Rasterizer, codec: Codec)
    requires RoundTrips(codec)
    requires StartsWithSeparator(path) && path in files && path !in cache
    requires FirstPage(ras, path, PreviewSettings).Some?
    ensures var s := RenderPreview(cache, path, ras, codec);
      PreviewImage(s.cache, path, files, later, codec).result == Image(FirstPage(ras, path, PreviewSettings).value)
  {
    var s := RenderPreview(cache, path, ras, codec);
    var image := FirstPage(ras, path, PreviewSettings).value;
    assert s.cache[path] == Encoded(codec.encode(image));
    assert codec.decode(codec.encode(image)) == Some(image);
  }

  /**
   * The plain key of a path ending in "_all" is the all-pages key of the
   * path without it: once the all-pages preview of `path` is cached, the
   * single preview of `path + "_all"` answers the page list.
   */
  lemma AllPagesKeyCollides(cache: Cache, path: string, ras: Rasterizer, later: Rasterizer, codec: Codec)
    requires AllPagesKey(path) !in cache && DocumentRenders(ras, path, AllPagesSettings)
    ensures var s := RenderAllPages(cache, path, ras, codec);
      RenderPreview(s.cache, path + "_all", later, codec).result == Some(s.result)
      && s.result.EncodedPages?
  {
  }

  /** Every single-image entry holds valid base64 text. */
  ghost predicate Decodable(cache: Cache, codec: Codec) {
    forall k :: k in cache && cache[k].Encoded? ==> codec.decode(cache[k].text).Some?
  }

  /** The preview operation stores only text the codec produced. */
  lemma PreviewKeepsDecodable(cache: Cache, path: string, ras: Rasterizer, codec: Codec)
    requires RoundTrips(codec) && Decodable(cache, codec)
    ensures Decodable(RenderPreview(cache, path, ras, codec).cache, codec)
  {
    if path !in cache && RenderPreview(cache, path, ras, codec).result.Some? {
      assert codec.decode(codec.encode(FirstPage(ras, path, PreviewSettings).value)).Some?;
    }
  }

  /** The preview-image route stores only text the codec produced. */
  lemma ImageKeepsDecodable(cache: Cache, route: string, files: set<string>, ras: Rasterizer, codec: Codec)
    requires RoundTrips(codec) && Decodable(cache, codec)
    ensures Decodable(PreviewImage(cache, route, files, ras, codec).cache, codec)
  {
    var s := PreviewImage(cache, route, files, ras, codec);
    var p := NormalizeRoute(route);
    if p in files && p !in cache && s.result.Image? {
      assert codec.decode(codec.encode(s.result.jpeg)).Some?;
    }
  }

  /** All four cache operations keep every single-image entry decodable. */
  lemma OperationsKeepDecodable(cache: Cache, path: string, route: string, files: set<string>, ras: Rasterizer, codec: Codec)
    requires RoundTrips(codec) && Decodable(cache, codec)
    ensures Decodable(RenderPreview(cache, path, ras, codec).cache, codec)
    ensures Decodable(RenderAllPages(cache, path, ras, codec).cache, codec)
    ensures Decodable(PreviewImage(cache, route, files, ras, codec).cache, codec)
    ensures Decodable(Invalidate(cache, path), codec)
  {
    PreviewKeepsDecodable(cache, path, ras, codec);
    ImageKeepsDecodable(cache, route, files, ras, codec);
  }

  /** With decodable entries, the preview-image route fails to decode only a page list under the plain key. */
  lemma DecodeFailsOnlyOnPageList(cache: Cache, route: string, files: set<string>, ras: Rasterizer, codec: Codec)
    requires Decodable(cache, codec)
    requires PreviewImage(cache, route, files, ras, codec).result == DecodeFailed
    ensures NormalizeRoute(route) in cache && cache[NormalizeRoute(route)].EncodedPages?
  {
  }
}

=== FILE: routes.dfy ===
/**
 * The path parameter of the preview-image and PDF routes arrives without its
 * leading slash (the route captures everything after the prefix); the
 * handlers put it back before touching the file system.
 */
module Routes {
  import opened PathNames

  predicate StartsWithSeparator(p: string) {
    |p| > 0 && p[0] == Separator
  }

  /** `if not p.startswith("/"): p = "/" + p`. */
  function NormalizeRoute(p: string): (r: string)
    ensures StartsWithSeparator(r)
    ensures StartsWithSeparator(p) ==> r == p
    ensures !StartsWithSeparator(p) ==> |r| == |p| + 1 && r[1..] == p
  {
    if StartsWithSeparator(p) then p else [Separator] + p
  }

  /** Normalising twice is normalising once. */
  lemma NormalizeRouteIdempotent(p: string)
    ensures NormalizeRoute(NormalizeRoute(p)) == NormalizeRoute(p)
  {
  }

  /** Two route strings lead to the same file path only if they differ at most by the leading slash. */
  lemma NormalizeRouteCollapses(p: string, q: string)
    requires NormalizeRoute(p) == NormalizeRoute(q)
    ensures p == q || (p == [Separator] + q) || (q == [Separator] + p)
  {
    if StartsWithSeparator(p) && !StartsWithSeparator(q) {
      assert p == [Separator] + p[1..];
    } else if !StartsWithSeparator(p) && StartsWithSeparator(q) {
      assert q == [Separator] + q[1..];
    } else if !StartsWithSeparator(p) && !StartsWithSeparator(q) {
      assert p == NormalizeRoute(p)[1..];
    }
  }
}

=== FILE: scanner.dfy ===
/**
 * The directory scan: keep the entries whose lower-cased suffix is ".pdf",
 * sort them by name, and warm the preview cache for the first ten.
 */
module Scanner {
  import opened PathNames
  import opened PreviewCache

  /** One listed PDF: its file name and its absolute path. */
  datatype Entry = Entry(name: string, path: string)

  /** What the scan route answers. */
  datatype ScanReply =
    | Listed(pdfs: seq<Entry>)   // 200 with the sorted PDFs
    | DirectoryNotFound          // 404: no such directory
    | NotADirectory              // 400: the path is not a directory

  const WarmUpCount: nat := 10
  const PdfSuffix: string := ".pdf"

  /** Lower-casing of one character (ASCII letters). */
  function LowerChar(c: char): (d: char)
    ensures 'A' <= c <= 'Z' ==> d as int == c as int + 32
    ensures !('A' <= c <= 'Z') ==> d == c
  {
    if 'A' <= c <= 'Z' then (c as int + 32) as char else c
  }

  /** `str.lower()`, character by character. */
  function Lower(s: string): (r: string)
    ensures |r| == |s|
    ensures forall i :: 0 <= i < |s| ==> r[i] == LowerChar(s[i])
  {
    seq(|s|, i requires 0 <= i < |s| => LowerChar(s[i]))
  }

  /** `file.suffix.lower() == ".pdf"`. */
  function IsPdfName(name: string): (b: bool)
    ensures b <==>
      && |name| >= 5
      && name[|name| - 4] == Dot
      && LowerChar(name[|name| - 3]) == 'p'
      && LowerChar(name[|name| - 2]) == 'd'
      && LowerChar(name[|name| - 1]) == 'f'
  {
    IsPdfNameCharacterization(name);
    assert |name| >= 5 ==> (Lower(name[|name| - 4..]) == PdfSuffix <==>
      Lower(name[|name| - 4..]) == [Dot, 'p', 'd', 'f']);
    Lower(Suffix(name)) == PdfSuffix
  }

  /**
   * A name is kept exactly when it has at least one character before a
   * final ".pdf" in any letter case: "A.PDF" is kept, ".pdf" (a hidden
   * file with no suffix) and "a.pdf.bak" are not.
   */
  lemma IsPdfNameCharacterization(name: string)
    ensures Lower(Suffix(name)) == PdfSuffix <==>
      && |name| >= 5
      && Lower(name[|name| - 4..]) == PdfSuffix
  {
    var n := |name|;
    var i := LastIndexOf(name, Dot);
    if Lower(Suffix(name)) == PdfSuffix {
      var sfx := Suffix(name);
      assert |Lower(sfx)| == 4;
      assert 0 < i < n - 1 && sfx == name[i..];
      assert name[n - 4..] == sfx;
    }
    if |name| >= 5 && Lower(name[n - 4..]) == PdfSuffix {
      assert LowerChar(name[n - 4]) == '.';
      assert name[n - 4] == Dot;
      assert LowerChar(name[n - 3]) == 'p' && LowerChar(name[n - 2]) == 'd' && LowerChar(name[n - 1]) == 'f';
      assert name[n - 3] != Dot && name[n - 2] != Dot && name[n - 1] != Dot;
      assert i == n - 4;
    }
  }

  /** The loop over the listing: one entry per PDF name, in listing order, with its path in `folder`. */
  function PdfEntries(folder: string, listing: seq<string>): (r: seq<Entry>)
    ensures |r| <= |listing|
    ensures PathsUnder(folder, r)
    ensures forall e :: e in r ==> IsPdfName(e.name) && e.name in listing
  {
    if listing == [] then []
    else
      var head := listing[0];
      var rest := PdfEntries(folder, listing[1..]);
      if IsPdfName(head) then [Entry(head, Join(folder, head))] + rest else rest
  }

  /** Each PDF name occurs among the entries as often as in the listing, and no other name occurs. */
  lemma {:induction false} PdfEntriesCount(folder: string, listing: seq<string>, n: string)
    ensures multiset(Names(PdfEntries(folder, listing)))[n] == if IsPdfName(n) then multiset(listing)[n] else 0
  {
    if listing != [] {
      var head, tail := listing[0], listing[1..];
      var rest := PdfEntries(folder, tail);
      PdfEntriesCount(folder, tail, n);
      assert listing == [head] + tail;
      var kept := Names(PdfEntries(folder, listing));
      if IsPdfName(head) {
        NamesCons(Entry(head, Join(folder, head)), rest);
        assert kept == [head] + Names(rest);
      } else {
        assert kept == Names(rest);
      }
      CountStep(head, tail, kept, Names(rest), n);
    }
  }

  /** One step of the count: the head of the listing is kept exactly when it is a PDF name. */
  lemma CountStep(head: string, tail: seq<string>, kept: seq<string>, restNames: seq<string>, n: string)
    requires kept == if IsPdfName(head) then [head] + restNames else restNames
    requires multiset(restNames)[n] == if IsPdfName(n) then multiset(tail)[n] else 0
    ensures multiset(kept)[n] == if IsPdfName(n) then multiset([head] + tail)[n] else 0
  {
    ConsCount(head, tail, n);
    if IsPdfName(head) {
      ConsCount(head, restNames, n);
    }
  }

  lemma ConsCount(x: string, s: seq<string>, n: string)
    ensures multiset([x] + s)[n] == (if x == n then 1 else 0) + multiset(s)[n]
  {
    assert multiset([x] + s) == multiset{x} + multiset(s);
  }

  /** The names of a sequence of entries. */
  function Names(entries: seq<Entry>): (r: seq<string>)
    ensures |r| == |entries|
    ensures forall i :: 0 <= i < |entries| ==> r[i] == entries[i].name
  {
    seq(|entries|, i requires 0 <= i < |entries| => entries[i].name)
  }

  /**
   * The textbook order on strings: `a` is a prefix of `b`, or at the first
   * position where they differ `a` has the smaller code point.
   */
  ghost predicate Lexicographic(a: string, b: string) {
    || (|a| <= |b| && a == b[..|a|])
    || exists i :: 0 <= i < |a| && i < |b| && a[..i] == b[..i] && a[i] < b[i]
  }

  /** Python's `<=` on strings, compared character by character from the front. */
  function NameLessEq(a: string, b: string): (r: bool)
    ensures r <==> Lexicographic(a, b)
  {
    if a == [] then true
    else if b == [] then false
    else if a[0] != b[0] then
      LexicographicHead(a, b);
      a[0] < b[0]
    else
      LexicographicTail(a, b);
      NameLessEq(a[1..], b[1..])
  }

  /** Strings that differ in their first character are ordered by it. */
  lemma LexicographicHead(a: string, b: string)
    requires a != [] && b != [] && a[0] != b[0]
    ensures Lexicographic(a, b) <==> a[0] < b[0]
  {
    if a[0] < b[0] {
      assert a[..0] == b[..0];
    } else {
      assert |a| <= |b| ==> b[..|a|][0] != a[0];
      forall i | 0 < i <= |a| && i <= |b|
        ensures a[..i] != b[..i]
      {
        assert a[..i][0] != b[..i][0];
      }
    }
  }

  /** Strings with the same first character are ordered as their tails are. */
  lemma LexicographicTail(a: string, b: string)
    requires a != [] && b != [] && a[0] == b[0]
    ensures Lexicographic(a, b) <==> Lexicographic(a[1..], b[1..])
  {
    var a', b' := a[1..], b[1..];
    if |a| <= |b| {
      assert a == b[..|a|] <==> a' == b'[..|a'|] by {
        assert a == [a[0]] + a' && b[..|a|] == [b[0]] + b'[..|a'|];
      }
    }
    forall i | 0 <= i < |a| && i < |b| && a[..i] == b[..i] && a[i] < b[i]
      ensures 0 <= i - 1 < |a'| && i - 1 < |b'| && a'[..i - 1] == b'[..i - 1] && a'[i - 1] < b'[i - 1]
    {
      assert i > 0;
      assert a'[..i - 1] == a[..i][1..] && b'[..i - 1] == b[..i][1..];
    }
    forall j | 0 <= j < |a'| && j < |b'| && a'[..j] == b'[..j] && a'[j] < b'[j]
      ensures 0 <= j + 1 < |a| && j + 1 < |b| && a[..j + 1] == b[..j + 1] && a[j + 1] < b[j + 1]
    {
      assert a[..j + 1] == [a[0]] + a'[..j] && b[..j + 1] == [b[0]] + b'[..j];
    }
  }

  lemma {:induction false} NameLessEqTotal(a: string, b: string)
    ensures NameLessEq(a, b) || NameLessEq(b, a)
  {
    if a != [] && b != [] && a[0] == b[0] {
      NameLessEqTotal(a[1..], b[1..]);
    }
  }

  lemma {:induction false} NameLessEqTransitive(a: string, b: string, c: string)
    requires NameLessEq(a, b) && NameLessEq(b, c)
    ensures NameLessEq(a, c)
  {
    if a != [] && b != [] && c != [] && a[0] == b[0] && b[0] == c[0] {
      NameLessEqTransitive(a[1..], b[1..], c[1..]);
    }
  }

  /** Entries in non-decreasing order of name. */
  ghost predicate SortedByName(entries: seq<Entry>) {
    forall i, j :: 0 <= i < j < |entries| ==> NameLessEq(entries[i].name, entries[j].name)
  }

  /** `name` is no greater than the name of any entry of `entries`. */
  ghost predicate AtMostAll(name: string, entries: seq<Entry>) {
    forall j :: 0 <= j < |entries| ==> NameLessEq(name, entries[j].name)
  }

  lemma SortedCons(first: Entry, rest: seq<Entry>)
    requires SortedByName(rest) && AtMostAll(first.name, rest)
    ensures SortedByName([first] + rest)
  {
    var r := [first] + rest;
    forall i, j | 0 <= i < j < |r|
      ensures NameLessEq(r[i].name, r[j].name)
    {
      assert r[j] == rest[j - 1];
      if i > 0 {
        assert r[i] == rest[i - 1];
      }
    }
  }

  /** Place `e` before the first entry whose name is not smaller than its own. */
  function Insert(e: Entry, sorted: seq<Entry>): (r: seq<Entry>)
    ensures multiset(r) == multiset(sorted) + multiset{e}
  {
    if sorted == [] then [e]
    else if NameLessEq(e.name, sorted[0].name) then [e] + sorted
    else
      assert sorted == [sorted[0]] + sorted[1..];
      [sorted[0]] + Insert(e, sorted[1..])
  }

  lemma NamesCons(x: Entry, s: seq<Entry>)
    ensures Names([x] + s) == [x.name] + Names(s)
  {
    var a, b := Names([x] + s), [x.name] + Names(s);
    forall i | 0 <= i < |a|
      ensures a[i] == b[i]
    {
      if i > 0 {
        assert ([x] + s)[i] == s[i - 1];
      }
    }
  }

  lemma NamesOfConcat(a: seq<Entry>, b: seq<Entry>)
    ensures Names(a + b) == Names(a) + Names(b)
  {
    var l, r := Names(a + b), Names(a) + Names(b);
    forall i | 0 <= i < |l|
      ensures l[i] == r[i]
    {
      if i >= |a| {
        assert (a + b)[i] == b[i - |a|];
      }
    }
  }

  /** Dropping the entry at `k` removes exactly one copy of it. */
  lemma RemoveAt(b: seq<Entry>, k: int)
    requires 0 <= k < |b|
    ensures b == b[..k] + [b[k]] + b[k + 1..]
    ensures multiset(b[..k] + b[k + 1..]) == multiset(b) - multiset{b[k]}
  {
    assert b == b[..k] + [b[k]] + b[k + 1..];
    assert multiset(b) == multiset(b[..k] + [b[k]]) + multiset(b[k + 1..]);
  }

  /** The names of `front + [e] + back` are those of `front + back` and one more `e.name`. */
  lemma NamesSplice(front: seq<Entry>, e: Entry, back: seq<Entry>)
    ensures multiset(Names(front + [e] + back)) == multiset(Names(front + back)) + multiset{e.name}
  {
    var n := [e.name];
    assert [e] + [] == [e];
    NamesCons(e, []);
    NamesOfConcat(front + [e], back);
    NamesOfConcat(front, [e]);
    NamesOfConcat(front, back);
    calc {
      multiset(Names(front + [e] + back));
      multiset(Names(front) + n + Names(back));
      multiset(Names(front)) + multiset(n) + multiset(Names(back));
      multiset(Names(front) + Names(back)) + multiset(n);
    }
  }

  /** Removing the matching entry from both sides of a permutation leaves a permutation. */
  lemma PermutationStep(a: seq<Entry>, b: seq<Entry>, k: int)
    requires multiset(a) == multiset(b) && a != [] && 0 <= k < |b| && b[k] == a[0]
    ensures multiset(a[1..]) == multiset(b[..k] + b[k + 1..])
  {
    RemoveAt(b, k);
    assert a == [a[0]] + a[1..];
    assert multiset(a[1..]) == multiset(a) - multiset{a[0]};
  }

  /** Putting the matching entry back on both sides keeps the names a permutation. */
  lemma NamesStep(a: seq<Entry>, b: seq<Entry>, k: int)
    requires a != [] && 0 <= k < |b| && b[k] == a[0]
    requires multiset(Names(a[1..])) == multiset(Names(b[..k] + b[k + 1..]))
    ensures multiset(Names(a)) == multiset(Names(b))
  {
    RemoveAt(b, k);
    assert a == [a[0]] + a[1..];
    NamesCons(a[0], a[1..]);
    NamesSplice(b[..k], a[0], b[k + 1..]);
  }

  /** Entries that are a permutation of each other have names that are a permutation of each other. */
  lemma {:induction false} NamesOfPermutation(a: seq<Entry>, b: seq<Entry>)
    requires multiset(a) == multiset(b)
    ensures multiset(Names(a)) == multiset(Names(b))
    decreases |a|
  {
    if a == [] {
      assert |b| == |multiset(b)| == 0;
    } else {
      assert a[0] in multiset(b);
      var k :| 0 <= k < |b| && b[k] == a[0];
      PermutationStep(a, b, k);
      NamesOfPermutation(a[1..], b[..k] + b[k + 1..]);
      NamesStep(a, b, k);
    }
  }

  /** Inserting into a sorted sequence gives a sorted sequence. */
  lemma {:induction false} InsertSorted(e: Entry, sorted: seq<Entry>)
    requires SortedByName(sorted)
    ensures SortedByName(Insert(e, sorted))
    decreases |sorted|
  {
    if sorted == [] {
    } else if NameLessEq(e.name, sorted[0].name) {
      forall j | 0 <= j < |sorted|
        ensures NameLessEq(e.name, sorted[j].name)
      {
        if j > 0 {
          NameLessEqTransitive(e.name, sorted[0].name, sorted[j].name);
        }
      }
      SortedCons(e, sorted);
    } else {
      var first, tail := sorted[0], sorted[1..];
      var rest := Insert(e, tail);
      InsertSorted(e, tail);
      NameLessEqTotal(e.name, first.name);
      assert sorted == [first] + tail;
      forall j | 0 <= j < |rest|
        ensures NameLessEq(first.name, rest[j].name)
      {
        assert rest[j] in multiset(rest);
        if rest[j] != e {
          assert rest[j] in multiset(tail);
          var m :| 0 <= m < |tail| && tail[m] == rest[j];
          assert sorted[m + 1] == rest[j];
        }
      }
      SortedCons(first, rest);
    }
  }

  /**
   * `sorted(pdfs, key=lambda x: x["name"])`, as an insertion sort: each
   * entry goes before the already-sorted entries whose names are not smaller.
   */
  function SortByName(entries: seq<Entry>): (r: seq<Entry>)
    ensures SortedByName(r)
    ensures multiset(r) == multiset(entries)
  {
    if entries == [] then []
    else
      var rest := SortByName(entries[1..]);
      assert entries == [entries[0]] + entries[1..];
      InsertSorted(entries[0], rest);
      Insert(entries[0], rest)
  }

  /** Every name occurs in `names` as often as in `listing` if it names a PDF, and not at all otherwise. */
  ghost predicate PdfCounts(names: seq<string>, listing: seq<string>) {
    forall n :: multiset(names)[n] == if IsPdfName(n) then multiset(listing)[n] else 0
  }

  /** Every entry's path is its name joined to `folder`. */
  ghost predicate PathsUnder(folder: string, entries: seq<Entry>) {
    forall e :: e in entries ==> e.path == Join(folder, e.name)
  }

  /** The listing's PDFs, sorted: what a successful scan answers. */
  function SortedPdfs(folder: string, listing: seq<string>): (r: seq<Entry>)
    ensures SortedByName(r)
    ensures PathsUnder(folder, r)
    ensures PdfCounts(Names(r), listing)
  {
    var found := PdfEntries(folder, listing);
    var sorted := SortByName(found);
    PdfEntriesCounts(folder, listing);
    PermutationKeepsScanFacts(folder, listing, found, sorted);
    sorted
  }

  lemma PermutationKeepsScanFacts(folder: string, listing: seq<string>, found: seq<Entry>, sorted: seq<Entry>)
    requires multiset(sorted) == multiset(found)
    requires PathsUnder(folder, found) && PdfCounts(Names(found), listing)
    ensures PathsUnder(folder, sorted) && PdfCounts(Names(sorted), listing)
  {
    NamesOfPermutation(sorted, found);
    assert forall e :: e in sorted ==> e in multiset(found);
  }

  lemma PdfEntriesCounts(folder: string, listing: seq<string>)
    ensures PdfCounts(Names(PdfEntries(folder, listing)), listing)
  {
    forall n
      ensures multiset(Names(PdfEntries(folder, listing)))[n] == if IsPdfName(n) then multiset(listing)[n] else 0
    {
      PdfEntriesCount(folder, listing, n);
    }
  }

  /**
   * `scan_directory`: 404 when the directory does not exist, 400 when it is
   * not a directory, otherwise the PDF entries of `listing` (the names
   * `iterdir` yields) sorted by name, with absolute paths under `folder`.
   */
  function Scan(folder: string, present: bool, isDir: bool, listing: seq<string>): (r: ScanReply)
    ensures !present ==> r == DirectoryNotFound
    ensures present && !isDir ==> r == NotADirectory
    ensures present && isDir ==> r.Listed?
    ensures r.Listed? ==> SortedByName(r.pdfs) && PathsUnder(folder, r.pdfs) && PdfCounts(Names(r.pdfs), listing)
  {
    if !present then DirectoryNotFound
    else if !isDir then NotADirectory
    else Listed(SortedPdfs(folder, listing))
  }

  /** `pdfs[:10]`: the paths whose previews are warmed, in sorted order. */
  function WarmUpTargets(pdfs: seq<Entry>): (r: seq<string>)
    ensures |r| == if |pdfs| < WarmUpCount then |pdfs| else WarmUpCount
    ensures forall i :: 0 <= i < |r| ==> r[i] == pdfs[i].path
  {
    var n := if |pdfs| < WarmUpCount then |pdfs| else WarmUpCount;
    seq(n, i requires 0 <= i < n => pdfs[i].path)
  }

  /**
   * The warm-up renders, as if run one after another: the cache after
   * `render_pdf_preview` has been called on each target.
   */
  function WarmUp(cache: Cache, targets: seq<string>, ras: Rasterizer, codec: Codec): (r: Cache)
    ensures forall k :: k !in targets ==> (k in r <==> k in cache) && (k in cache ==> r[k] == cache[k])
    ensures forall k :: k in targets && k in cache ==> k in r && r[k] == cache[k]
    ensures forall k :: k in targets && k !in cache ==> (k in r <==> FirstPage(ras, k, PreviewSettings).Some?)
    ensures forall k :: k in targets && k !in cache && k in r ==>
      r[k] == Encoded(codec.encode(FirstPage(ras, k, PreviewSettings).value))
    decreases |targets|
  {
    if targets == [] then cache
    else WarmUp(RenderPreview(cache, targets[0], ras, codec).cache, targets[1..], ras, codec)
  }

  /**
   * The warm-up of a successful scan renders PDFs of the listing itself,
   * under their joined paths, and none of them sorts after an entry that
   * is not warmed.
   */
  lemma WarmUpTargetsOfScan(folder: string, listing: seq<string>)
    ensures var pdfs := SortedPdfs(folder, listing);
      var targets := WarmUpTargets(pdfs);
      && (forall i :: 0 <= i < |targets| ==>
            IsPdfName(pdfs[i].name) && pdfs[i].name in listing && targets[i] == Join(folder, pdfs[i].name))
      && (forall i, j :: 0 <= i < |targets| <= j < |pdfs| ==> NameLessEq(pdfs[i].name, pdfs[j].name))
  {
    var pdfs := SortedPdfs(folder, listing);
    var targets := WarmUpTargets(pdfs);
    forall i | 0 <= i < |targets|
      ensures IsPdfName(pdfs[i].name) && pdfs[i].name in listing && targets[i] == Join(folder, pdfs[i].name)
    {
      var name := pdfs[i].name;
      assert Names(pdfs)[i] == name;
      assert multiset(Names(pdfs))[name] > 0;
      assert pdfs[i] in pdfs;
    }
  }
}

=== FILE: wrappers.dfy ===
/** The optional value used wherever the service answers "nothing" (Python's None). */
module Wrappers {

  datatype Option<+T> = None | Some(value: T)
}
